=== FILE: README.md ===
# Result shaping of the TDS Virtual TA `/query` handler

The `/query` endpoint of `app.py` answers a question from a knowledge base.
It embeds the question, runs a similarity search, and asks a language model
for an answer, which it parses into a dictionary `{answer, links}`. After
that, the handler shapes the result with a few deterministic steps. This
project models those steps and proves what they guarantee:

- **Empty short-circuit.** When the similarity search returns no hits, the
  reply is exactly `{"answer": "No relevant info found.", "links": []}`.
- **Fallback links.** When the parsed reply has no links, the handler
  builds them itself. The test is Python truthiness, so any falsy `links`
  value triggers it; the model covers an absent key, null, and an empty
  list. The handler scans at most the first five hits and keeps the first
  hit for each URL. Each kept hit becomes `{url, text}`, where `text` is
  the first 100 characters of the hit's content followed by `"..."`.
- **Missing or null answer.** The handler then computes
  `len(result['answer'])` for a log message. A parsed reply without an
  `answer` key raises `KeyError`, and one whose `answer` is null raises
  `TypeError`. The handler catches either and returns a 500 body whose
  `error` is the exception's text: `'answer'`, or
  `object of type 'NoneType' has no len()`.

Modules:

- `Wrappers`: `Option`, used for dictionary keys that may be absent.
- `Links`: hits (`Entry`), links (`Link`) and snippets. Also the link list
  the loop builds (`DedupLinks`, `FallbackLinks`) and the loop itself as a method
  (`BuildFallbackLinks`).
- `FallbackSpec`: a description of the fallback list that is independent of
  the loop. It has four parts: distinct URLs; each link taken from the first
  hit with its URL; every scanned URL linked; order of first occurrence. The
  module proves that the loop's list meets this description and that no
  other list does.
- `QueryHandler`: the parsed reply (`Parsed`), the response (`Response`) and
  `Finalize`, which puts the steps together.

The embedding, similarity-search, enrichment, answer-generation and parsing
helpers are not part of this model. Their outputs are the inputs of
`Finalize`: the sequence of hits and the parsed dictionary.

## Model

| member | source | states |
|---|---|---|
| `Links.Scanned` | app.py:62 | the scanned hits are a prefix of the results, at most five long, and the whole list when it has fewer than five |
| `Links.Snippet` | app.py:65 | a snippet ends in `"..."`, is at most 103 characters, and what precedes the marker is a prefix of the content: the whole content, or exactly its first 100 characters |
| `Links.DedupLinks` | app.py:60-66 | the loop's link list has one entry per distinct URL among the hits visited, so it is never longer than the hits |
| `Links.FallbackLinks` | app.py:59-66 | the fallback list has at most five links, and at least one whenever there are hits |
| `Links.BuildFallbackLinks` | app.py:60-66 | the loop with its seen-URL set and growing list computes exactly the fallback list |
| `Links.FallbackIgnoresLaterResults` | app.py:62 | hits after the fifth never change the fallback links |
| `FallbackSpec.FirstIndex` | app.py:63-64 | the position it returns holds the URL, and no earlier hit has that URL |
| `FallbackSpec.SnocRepeated` | app.py:63 | a hit whose URL was already seen leaves the valid fallback list unchanged |
| `FallbackSpec.SnocNew` | app.py:63-66 | a hit with an unseen URL extends the valid list by its own link at the end |
| `FallbackSpec.SnocNewInverse` | app.py:63-66 | a valid list for hits ending in an unseen URL ends with that hit's link, and the rest is valid for the earlier hits |
| `FallbackSpec.DedupMeetsSpec` | app.py:60-66 | the loop's list has pairwise distinct URLs, takes each link from the first hit with its URL, links every URL, and keeps first-occurrence order |
| `FallbackSpec.SpecDeterminesLinks` | app.py:60-66 | any link list with those four properties is the loop's list |
| `FallbackSpec.FallbackLinksCharacterised` | app.py:59-66 | a list is the fallback list if and only if it has the four properties over the first five hits |
| `FallbackSpec.EachScannedUrlLinkedOnce` | app.py:62-66 | each URL among the first five hits is linked exactly once, and the number of links is the number of distinct scanned URLs |
| `QueryHandler.Finalize` | app.py:52-74 | no hits give the fixed no-info reply; otherwise an absent answer gives a 500 error `'answer'`, a null answer gives a 500 error with the `len(None)` message, and a string answer gives a reply that keeps the parsed answer, keeps non-empty parsed links unchanged, and otherwise, when `NeedsFallback` holds (Python's `not result.get("links")`: absent, null or empty), carries the fallback list |
| `QueryHandler.MissingAndEmptyLinksAlike` | app.py:59 | a missing links key and an empty links list give the same response |
| `QueryHandler.FinalizeIdempotent` | app.py:52-69 | feeding any reply back in as the parsed dictionary returns the same reply |

## Left out

- The embedding, similarity-search, enrichment, answer-generation and parsing helpers (app.py:48-57): their source is not part of this model, so their results are arbitrary values of the modelled types.
- Exceptions raised by those helpers, and by opening the database, become 500 responses carrying the exception text (app.py:71-82). Only the errors of an absent or null `answer` are modelled, because they follow from the shape of the parsed reply.
- The SQLite connection and its guaranteed close (app.py:43, 76-77): resource management in a foreign library.
- The `/health` endpoint (app.py:84-116): it reports SQL `COUNT(*)` results. Any relation between its counts is a fact about the database, not something this code enforces.
- Application setup: FastAPI, CORS, routes, logging, the `API_KEY` read and uvicorn startup (app.py:4-38, 118-120).
- `async`/`await` sequencing: the calls are strictly sequential.
- Parsed dictionaries are restricted to `answer` and `links`. Any other keys are returned unchanged by the handler and are not modelled.
- `answer` values other than a string or null are not modelled. A list or dictionary has a `len()`, so the handler returns it unchanged; a number raises `TypeError`.
- `links` values other than null or a list of `{url, text}` links are not modelled. Any other falsy value (`""`, `{}`, `0`, `False`) also runs the fallback. A non-empty string or dictionary is returned unchanged. A truthy value without a length, such as `5` or `True`, skips the fallback, and then `len(result['links'])` raises `TypeError`, which becomes a 500 response.
- A similarity search result of `None` is not modelled; the handler treats it like an empty list and gives the no-info reply.
- Non-string hit URLs are not modelled. When the fallback runs, a hashable one such as null or an integer is deduplicated like any other URL and copied into its link. An unhashable one such as a list or dictionary raises `TypeError` at the seen-set test, which becomes a 500 response.
- Malformed hits are not modelled; every hit is taken to carry a string `url` and a string `content`. Only when the fallback runs can such a hit make the handler raise: a missing `url` among the first five hits, or a first-seen hit whose `content` is missing or cannot be sliced and joined to a string. Later hits, hits repeating an earlier URL, and all hits when the parsed links are kept are never read for those fields.
- Characters are Unicode scalar values, as Python's `str` indexes code points; lone surrogates are not modelled.

=== FILE: fallback_spec.dfy ===
/**
 An independent description of the fallback link list, stated over the
 scanned hits rather than by re-running the loop: URLs are pairwise
 distinct, every link comes from the first hit carrying its URL, every URL
 of the scanned hits is linked, and links follow the order in which their
 URLs first appear. `DedupLinks` meets this description, and nothing else does.
 */
module FallbackSpec {
  import opened Links

  /** The position of the first hit of `s` whose URL is `u`. */
  function FirstIndex(s: seq<Entry>, u: string): (i: nat)
    requires u in Urls(s)
    ensures i < |s| && s[i].url == u
    ensures forall k :: 0 <= k < i ==> s[k].url != u
  {
    if s[0].url == u then 0
    else
      assert u in Urls(s[1..]) by {
        var e :| e in s && e.url == u;
        assert s == [s[0]] + s[1..];
      }
      FirstIndex(s[1..], u) + 1
  }

  ghost predicate DistinctUrls(r: seq<Link>)
  {
    forall i, j :: 0 <= i < j < |r| ==> r[i].url != r[j].url
  }

  /** Each link names a scanned URL and carries the snippet of the first
      hit with that URL. */
  ghost predicate Sound(p: seq<Entry>, r: seq<Link>)
  {
    forall j :: 0 <= j < |r| ==>
      r[j].url in Urls(p) && r[j].text == Snippet(p[FirstIndex(p, r[j].url)].content)
  }

  /** The set of URLs some links point to. */
  function LinkUrls(r: seq<Link>): set<string>
  {
    set l | l in r :: l.url
  }

  lemma LinkUrlsSnoc(r: seq<Link>, l: Link)
    ensures LinkUrls(r + [l]) == LinkUrls(r) + {l.url}
  {
  }

  /** Every scanned URL is linked. */
  ghost predicate Complete(p: seq<Entry>, r: seq<Link>)
  {
    Urls(p) <= LinkUrls(r)
  }

  /** Links appear in the order their URLs first occur among the hits. */
  ghost predicate Ordered(p: seq<Entry>, r: seq<Link>)
  {
    forall i, j :: 0 <= i < j < |r| && r[i].url in Urls(p) && r[j].url in Urls(p) ==>
      FirstIndex(p, r[i].url) < FirstIndex(p, r[j].url)
  }

  ghost predicate IsFallbackFor(p: seq<Entry>, r: seq<Link>)
  {
    DistinctUrls(r) && Sound(p, r) && Complete(p, r) && Ordered(p, r)
  }

  /** Appending a hit does not move the first occurrence of an earlier URL,
      and a new URL first occurs at the appended position. */
  lemma FirstIndexSnoc(q: seq<Entry>, e: Entry, u: string)
    requires u in Urls(q) || u == e.url
    ensures u in Urls(q + [e])
    ensures u in Urls(q) ==> FirstIndex(q + [e], u) == FirstIndex(q, u)
    ensures u !in Urls(q) ==> FirstIndex(q + [e], u) == |q|
  {
    UrlsSnoc(q, e);
    var s := q + [e];
    var i := FirstIndex(s, u);
    if u in Urls(q) {
      var f := FirstIndex(q, u);
      assert s[f].url == u;
      assert i <= f;
      assert s[i] == q[i];
    } else {
      forall k | 0 <= k < |q|
        ensures s[k].url != u
      {
        assert q[k] in q;
      }
    }
  }

  /** A repeated URL leaves a valid list valid. */
  lemma SnocRepeated(q: seq<Entry>, e: Entry, r: seq<Link>)
    requires e.url in Urls(q)
    ensures IsFallbackFor(q, r) <==> IsFallbackFor(q + [e], r)
  {
    var p := q + [e];
    UrlsSnoc(q, e);
    assert Urls(p) == Urls(q);
    forall u | u in Urls(q)
      ensures FirstIndex(p, u) == FirstIndex(q, u)
      ensures p[FirstIndex(p, u)] == q[FirstIndex(q, u)]
    {
      FirstIndexSnoc(q, e, u);
    }
    assert Sound(q, r) <==> Sound(p, r);
    assert Ordered(q, r) <==> Ordered(p, r);
    assert Complete(q, r) <==> Complete(p, r);
  }

  /** A new URL extends a valid list by its own link, at the end. */
  lemma SnocNew(q: seq<Entry>, e: Entry, r: seq<Link>)
    requires e.url !in Urls(q)
    requires IsFallbackFor(q, r)
    ensures IsFallbackFor(q + [e], r + [Link(e.url, Snippet(e.content))])
  {
    SnocNewDistinctSound(q, e, r);
    SnocNewOrdered(q, e, r);
    SnocNewComplete(q, e, r);
  }

  lemma SnocNewDistinctSound(q: seq<Entry>, e: Entry, r: seq<Link>)
    requires e.url !in Urls(q)
    requires Sound(q, r) && DistinctUrls(r)
    ensures Sound(q + [e], r + [Link(e.url, Snippet(e.content))])
    ensures DistinctUrls(r + [Link(e.url, Snippet(e.content))])
  {
    var p := q + [e];
    var r2 := r + [Link(e.url, Snippet(e.content))];
    forall j | 0 <= j < |r2|
      ensures r2[j].url in Urls(p)
      ensures r2[j].text == Snippet(p[FirstIndex(p, r2[j].url)].content)
      ensures j < |r| ==> r2[j].url != e.url
    {
      if j < |r| {
        assert r2[j] == r[j];
        FirstIndexSnoc(q, e, r[j].url);
        assert p[FirstIndex(q, r[j].url)] == q[FirstIndex(q, r[j].url)];
      } else {
        FirstIndexSnoc(q, e, e.url);
      }
    }
  }

  lemma SnocNewOrdered(q: seq<Entry>, e: Entry, r: seq<Link>)
    requires e.url !in Urls(q)
    requires Sound(q, r) && Ordered(q, r)
    ensures Ordered(q + [e], r + [Link(e.url, Snippet(e.content))])
  {
    var p := q + [e];
    var r2 := r + [Link(e.url, Snippet(e.content))];
    forall i, j | 0 <= i < j < |r2| && r2[i].url in Urls(p) && r2[j].url in Urls(p)
      ensures FirstIndex(p, r2[i].url) < FirstIndex(p, r2[j].url)
    {
      assert r2[i] == r[i];
      FirstIndexSnoc(q, e, r[i].url);
      if j < |r| {
        assert r2[j] == r[j];
        FirstIndexSnoc(q, e, r[j].url);
      } else {
        FirstIndexSnoc(q, e, e.url);
      }
    }
  }

  lemma SnocNewComplete(q: seq<Entry>, e: Entry, r: seq<Link>)
    requires Complete(q, r)
    ensures Complete(q + [e], r + [Link(e.url, Snippet(e.content))])
  {
    UrlsSnoc(q, e);
    LinkUrlsSnoc(r, Link(e.url, Snippet(e.content)));
  }

  /** Conversely, a valid list for hits ending in a new URL ends with that
      URL's link, and the rest is valid for the earlier hits. */
  lemma SnocNewInverse(q: seq<Entry>, e: Entry, r: seq<Link>)
    requires e.url !in Urls(q)
    requires IsFallbackFor(q + [e], r)
    ensures r != [] && r[|r| - 1] == Link(e.url, Snippet(e.content))
    ensures IsFallbackFor(q, r[..|r| - 1])
  {
    NewUrlLinkedLast(q, e, r);
    SnocNewInverseSound(q, e, r);
    SnocNewInverseOrdered(q, e, r);
    SnocNewInverseComplete(q, e, r);
  }

  lemma NewUrlLinkedLast(q: seq<Entry>, e: Entry, r: seq<Link>)
    requires e.url !in Urls(q)
    requires Sound(q + [e], r) && Complete(q + [e], r) && Ordered(q + [e], r)
    ensures r != [] && r[|r| - 1] == Link(e.url, Snippet(e.content))
  {
    var p := q + [e];
    FirstIndexSnoc(q, e, e.url);
    assert p[|q|] == e;
    UrlsSnoc(q, e);
    assert e.url in LinkUrls(r);
    var jn :| 0 <= jn < |r| && r[jn].url == e.url;
    var last := |r| - 1;
    // No link can follow the new URL's: its first occurrence is the last hit.
    assert r[last].url in Urls(p);
    assert FirstIndex(p, r[last].url) <= FirstIndex(p, r[jn].url);
    assert jn == last;
  }

  lemma SnocNewInverseSound(q: seq<Entry>, e: Entry, r: seq<Link>)
    requires e.url !in Urls(q)
    requires r != [] && r[|r| - 1].url == e.url
    requires Sound(q + [e], r) && DistinctUrls(r)
    ensures Sound(q, r[..|r| - 1]) && DistinctUrls(r[..|r| - 1])
  {
    var p := q + [e];
    var r' := r[..|r| - 1];
    UrlsSnoc(q, e);
    forall j | 0 <= j < |r'|
      ensures r'[j].url in Urls(q)
      ensures r'[j].text == Snippet(q[FirstIndex(q, r'[j].url)].content)
    {
      assert r'[j] == r[j];
      assert r[j].url != e.url;
      FirstIndexSnoc(q, e, r[j].url);
      assert p[FirstIndex(q, r[j].url)] == q[FirstIndex(q, r[j].url)];
    }
  }

  lemma SnocNewInverseOrdered(q: seq<Entry>, e: Entry, r: seq<Link>)
    requires e.url !in Urls(q)
    requires r != [] && r[|r| - 1].url == e.url
    requires Sound(q + [e], r) && DistinctUrls(r) && Ordered(q + [e], r)
    ensures Ordered(q, r[..|r| - 1])
  {
    var p := q + [e];
    var r' := r[..|r| - 1];
    UrlsSnoc(q, e);
    forall i, j | 0 <= i < j < |r'| && r'[i].url in Urls(q) && r'[j].url in Urls(q)
      ensures FirstIndex(q, r'[i].url) < FirstIndex(q, r'[j].url)
    {
      assert r'[i] == r[i] && r'[j] == r[j];
      FirstIndexSnoc(q, e, r[i].url);
      FirstIndexSnoc(q, e, r[j].url);
    }
  }

  lemma SnocNewInverseComplete(q: seq<Entry>, e: Entry, r: seq<Link>)
    requires r != [] && r[|r| - 1].url == e.url
    requires e.url !in Urls(q)
    requires Complete(q + [e], r)
    ensures Complete(q, r[..|r| - 1])
  {
    UrlsSnoc(q, e);
    assert r == r[..|r| - 1] + [r[|r| - 1]];
    LinkUrlsSnoc(r[..|r| - 1], r[|r| - 1]);
  }

  lemma {:induction false} DedupMeetsSpec(p: seq<Entry>)
    ensures IsFallbackFor(p, DedupLinks(p))
    decreases |p|
  {
    if p != [] {
      var q := p[..|p| - 1];
      var e := p[|p| - 1];
      assert p == q + [e];
      DedupMeetsSpec(q);
      if e.url in Urls(q) {
        SnocRepeated(q, e, DedupLinks(q));
      } else {
        SnocNew(q, e, DedupLinks(q));
      }
    }
  }

  /** The description determines the list: any list meeting it is the one
      the handler builds. */
  lemma {:induction false} SpecDeterminesLinks(p: seq<Entry>, r: seq<Link>)
    requires IsFallbackFor(p, r)
    ensures r == DedupLinks(p)
    decreases |p|, 1
  {
    if p == [] {
      NothingLinkedForNoHits(r);
    } else {
      var q := p[..|p| - 1];
      assert p == q + [p[|p| - 1]];
      SpecDeterminesLinksSnoc(q, p[|p| - 1], r);
    }
  }

  lemma {:induction false} SpecDeterminesLinksSnoc(q: seq<Entry>, e: Entry, r: seq<Link>)
    requires IsFallbackFor(q + [e], r)
    ensures r == DedupLinks(q + [e])
    decreases |q| + 1, 0
  {
    assert (q + [e])[..|q|] == q;
    if e.url in Urls(q) {
      SnocRepeated(q, e, r);
      SpecDeterminesLinks(q, r);
    } else {
      SnocNewInverse(q, e, r);
      var r' := r[..|r| - 1];
      SpecDeterminesLinks(q, r');
      assert r == r' + [Link(e.url, Snippet(e.content))];
    }
  }

  lemma NothingLinkedForNoHits(r: seq<Link>)
    ensures Sound([], r) ==> r == []
  {
    if r != [] {
      assert r[0].url !in Urls([]);
    }
  }

  /** The fallback links are exactly the lists meeting the description
      over the first five hits. */
  lemma FallbackLinksCharacterised(results: seq<Entry>, r: seq<Link>)
    ensures IsFallbackFor(Scanned(results), r) <==> r == FallbackLinks(results)
  {
    if r == FallbackLinks(results) {
      DedupMeetsSpec(Scanned(results));
    }
    if IsFallbackFor(Scanned(results), r) {
      SpecDeterminesLinks(Scanned(results), r);
    }
  }

  /** Every URL among the first five hits is linked exactly once, so there
      are as many links as distinct scanned URLs. */
  lemma EachScannedUrlLinkedOnce(results: seq<Entry>, u: string)
    requires u in Urls(Scanned(results))
    ensures var r := FallbackLinks(results);
      |r| == |Urls(Scanned(results))| &&
      exists j :: 0 <= j < |r| && r[j].url == u &&
        forall k :: 0 <= k < |r| && r[k].url == u ==> k == j
  {
    var r := FallbackLinks(results);
    DedupMeetsSpec(Scanned(results));
    assert u in LinkUrls(r);
    var j :| 0 <= j < |r| && r[j].url == u;
    assert forall k :: 0 <= k < |r| && r[k].url == u ==> k == j;
  }
}

=== FILE: links.dfy ===
/**
 The fallback link synthesis of the `/query` handler. When the answer
 produced by the language model carries no links, the handler builds them
 itself from the first five similarity-search hits: one link per distinct
 URL, in the order the URLs first appear, each carrying a snippet of the
 content of the first hit with that URL.
 */
module Links {

  /** One hit of the similarity search. */
  datatype Entry = Entry(url: string, content: string)

  /** One `{url, text}` link of a reply. */
  datatype Link = Link(url: string, text: string)

  /** The slice bound of the fallback loop: only the first this-many hits
      are scanned, which also bounds the number of fallback links. */
  const ScanLimit: nat := 5

  /** Number of content characters a snippet keeps. */
  const SnippetLength: nat := 100

  /** Marker appended to every snippet. */
  const Ellipsis: string := "..."

  function Min(a: nat, b: nat): nat
  {
    if a <= b then a else b
  }

  /** The hits the fallback looks at; Python's slice `results[:5]`,
      which is the whole list when it is shorter. */
  function Scanned(results: seq<Entry>): (p: seq<Entry>)
    ensures p <= results
    ensures |p| <= ScanLimit
    ensures |p| == |results| || |p| == ScanLimit
  {
    results[..Min(ScanLimit, |results|)]
  }

  /** The link text for a hit: `content[:100] + "..."`. The kept part is a
      prefix of the content, and it is the whole content unless that content
      is longer than the snippet length. */
  function Snippet(content: string): (r: string)
    ensures |Ellipsis| <= |r| <= SnippetLength + |Ellipsis|
    ensures r[|r| - |Ellipsis|..] == Ellipsis
    ensures r[..|r| - |Ellipsis|] <= content
    ensures r[..|r| - |Ellipsis|] == content || |r| - |Ellipsis| == SnippetLength
  {
    content[..Min(SnippetLength, |content|)] + Ellipsis
  }

  /** The set of URLs occurring among some hits. */
  function Urls(s: seq<Entry>): set<string>
  {
    set e | e in s :: e.url
  }

  lemma UrlsSnoc(q: seq<Entry>, e: Entry)
    ensures Urls(q + [e]) == Urls(q) + {e.url}
  {
  }

  /** The link list the handler's loop holds after visiting every hit of `s`
      in order: a hit whose URL was already seen earlier adds nothing, any
      other hit appends its link. */
  function DedupLinks(s: seq<Entry>): (r: seq<Link>)
    ensures |r| == |Urls(s)| <= |s|
    decreases |s|
  {
    if s == [] then []
    else
      var q := s[..|s| - 1];
      var e := s[|s| - 1];
      assert s == q + [e];
      UrlsSnoc(q, e);
      if e.url in Urls(q) then
        assert Urls(s) == Urls(q);
        DedupLinks(q)
      else DedupLinks(q) + [Link(e.url, Snippet(e.content))]
  }

  /** The links the handler synthesises from the similarity results. */
  function FallbackLinks(results: seq<Entry>): (r: seq<Link>)
    ensures |r| <= ScanLimit
    ensures results != [] ==> r != []
  {
    var p := Scanned(results);
    assert p != [] ==> p[0].url in Urls(p);
    DedupLinks(p)
  }

  /** The handler's loop itself: a set of seen URLs and a growing list. */
  method BuildFallbackLinks(results: seq<Entry>) returns (links: seq<Link>)
    ensures links == FallbackLinks(results)
  {
    var scanned := Scanned(results);
    var seen: set<string> := {};
    links := [];
    var i := 0;
    while i < |scanned|
      invariant i <= |scanned|
      invariant seen == Urls(scanned[..i])
      invariant links == DedupLinks(scanned[..i])
    {
      var entry := scanned[i];
      assert scanned[..i + 1][..i] == scanned[..i];
      assert scanned[..i + 1] == scanned[..i] + [entry];
      UrlsSnoc(scanned[..i], entry);
      if entry.url !in seen {
        seen := seen + {entry.url};
        links := links + [Link(entry.url, Snippet(entry.content))];
      }
      i := i + 1;
    }
    assert scanned[..i] == scanned;
  }

  /** Hits after the fifth never influence the fallback links. */
  lemma FallbackIgnoresLaterResults(head: seq<Entry>, tail: seq<Entry>)
    requires |head| >= ScanLimit
    ensures FallbackLinks(head + tail) == FallbackLinks(head)
  {
    assert Scanned(head + tail) == Scanned(head);
  }
}

=== FILE: query.dfy ===
/**
 The result-shaping step of the `/query` handler. The similarity hits and
 the dictionary parsed from the language model's reply are inputs: they come
 from helpers outside this model. The step answers with a fixed message when
 there are no hits, substitutes fallback links when the parsed reply has
 none, and fails with a server error when the parsed reply has no usable
 answer.
 */
module QueryHandler {
  import opened Wrappers
  import opened Links
  import FallbackSpec

  /** The answer given when the similarity search finds nothing. */
  const NoInfoAnswer: string := "No relevant info found."

  /** The message of the `KeyError` raised by `result['answer']` when the
      key is absent, which the handler returns as the error text of its 500
      response. */
  const MissingAnswerError: string := "'answer'"

  /** The message of the `TypeError` raised by `len(result['answer'])` when
      the key holds null, returned the same way. */
  const NullAnswerError: string := "object of type 'NoneType' has no len()"

  /** The `answer` entry of the parsed dictionary: absent, null, or a string. */
  datatype AnswerField = Absent | Null | Text(text: string)

  /** The dictionary returned by the response parser, restricted to the two
      keys the handler reads. For `links`, `None` marks a key that is absent
      or holds null; `result.get` does not tell them apart. */
  datatype Parsed = Parsed(answer: AnswerField, links: Option<seq<Link>>)

  /** What the handler returns: a `{answer, links}` body, or a status 500
      body `{error}`. */
  datatype Response = Reply(answer: string, links: seq<Link>) | ServerError(error: string)

  /** Python's `not result.get("links")`: the key is absent, null, or holds
      an empty list. */
  predicate NeedsFallback(links: Option<seq<Link>>)
  {
    links.None? || links.value == []
  }

  /** The response for the given similarity hits and parsed model reply.
      The parsed reply is only consulted when there is at least one hit. */
  function Finalize(similar: seq<Entry>, parsed: Parsed): (r: Response)
    ensures similar == [] ==> r == Reply(NoInfoAnswer, [])
    ensures similar != [] ==> (r.ServerError? <==> !parsed.answer.Text?)
    ensures similar != [] && parsed.answer.Absent? ==> r == ServerError(MissingAnswerError)
    ensures similar != [] && parsed.answer.Null? ==> r == ServerError(NullAnswerError)
    ensures similar != [] && r.Reply? ==> r.answer == parsed.answer.text
    ensures similar != [] && r.Reply? && !NeedsFallback(parsed.links) ==>
      r.links == parsed.links.value
    ensures similar != [] && r.Reply? && NeedsFallback(parsed.links) ==>
      FallbackSpec.IsFallbackFor(Scanned(similar), r.links)
    ensures r.Reply? && NeedsFallback(parsed.links) ==> |r.links| <= ScanLimit
  {
    if similar == [] then
      Reply(NoInfoAnswer, [])
    else
      var links := if NeedsFallback(parsed.links) then FallbackLinks(similar) else parsed.links.value;
      match parsed.answer
      case Absent => ServerError(MissingAnswerError)
      case Null => ServerError(NullAnswerError)
      case Text(answer) =>
        FallbackSpec.DedupMeetsSpec(Scanned(similar));
        Reply(answer, links)
  }

  /** A missing links key and an empty links list are handled alike. */
  lemma MissingAndEmptyLinksAlike(similar: seq<Entry>, answer: AnswerField)
    ensures Finalize(similar, Parsed(answer, None)) == Finalize(similar, Parsed(answer, Some([])))
  {
  }

  /** Feeding a reply back in as the parsed dictionary gives the same reply:
      without hits the reply is fixed, and with hits a reply carries links,
      so no second fallback happens. */
  lemma FinalizeIdempotent(similar: seq<Entry>, parsed: Parsed)
    requires Finalize(similar, parsed).Reply?
    ensures var r := Finalize(similar, parsed);
      Finalize(similar, Parsed(Text(r.answer), Some(r.links))) == r
  {
  }
}

=== FILE: wrappers.dfy ===
/** The optional value used for dictionary entries the handler may find unset. */
module Wrappers {

  /** `None` stands for an entry that is unset; each use says which Python
      values that covers. */
  datatype Option<+T> = None | Some(value: T)
}
